=== FILE: README.md ===
# Gotham static file handler — path safety and outcome mapping

This project models the part of gotham's static file handler that decides what
to serve. `FileSystemHandler` serves the files under a trusted `root`. It takes
the untrusted tail of the request URL as a list of parts and builds the path
with `PathBuf::from_iter`. It then normalises that path with `normalize_path`
and appends the result to `root`. It reads the file found there. The outcome
becomes a 200 response typed by `mime_for_path`, or an error status chosen by
`error_status`.

Paths are modelled at the level of `std::path::Component`:

- `Prefix`, `RootDir`, `CurDir`, `ParentDir` and `Normal(name)` form a datatype.
- A path is a `seq<Component>`.
- `PathBuf::push`, `PathBuf::pop`, `Path::file_name`, `Path::extension`, and
  `PathBuf`'s `FromIterator`/`Extend` impls are pure functions on paths
  (module `Paths`).

`normalize_path` is a left fold (module `Normalize`). A name is pushed. A `..`
pops the last kept name, or does nothing when none is kept. A root, a prefix
or a `.` is dropped.

Module `StaticFile` joins the root with the normal form, maps I/O error kinds
to statuses, picks the MIME type, and composes the reply. Two things are
parameters:

- the file system: a function from a path to the file's bytes or an
  `io::ErrorKind`;
- the MIME table of the `mime_guess` crate: a partial function of the
  extension.

Module `TraversalVectors` restates the handler's traversal and content-type
tests on the model.

The central result is `StaticFile.ServedPathWithinRoot`. It is stated for
the join as intended, in which every name kept by `normalize_path` is
appended to `root` as one name. For every sequence of parts, that served path
is `root` followed by names only: never a `..`, a root or a prefix.
`StaticFile.HandleReadsOnlyWithinRoot` turns this into a non-interference
statement: the reply never depends on any file outside the root.

The code as written does not append names as one name each. `PathBuf::push`
(line 118) and `extend` (line 74) re-parse the text of every name. On Unix,
and on Windows whenever no name starts with a drive such as `C:`, the
re-parse gives back the name and the code equals the intended join
(`StaticFile.ServedPathAsWrittenOnUnix`, `StaticFile.ServedPathAsWrittenAgrees`).
On Windows a name that starts with a drive replaces the buffer, and the
served path leaves the root (`DriveNameFinding.DriveNameEscapesRoot`; see
"## Findings").

The code does not reject traversal attempts. It neutralises them: a `..` that
would climb above the start is forgotten, and the request is then served (or
answered 404) beneath the root. There is no separate traversal error, no
null-byte check, and no percent-decoding in this handler.

A part that is itself absolute (say a decoded `/etc`) replaces everything
pushed before it, because that is what `PathBuf::push` does. The result is
still taken beneath the root (`StaticFile.ServedPathAfterAbsolutePart`).

## Model

| member | source | states |
|---|---|---|
| `Paths.Push` | gotham/src/handler/static_file.rs:72-74 | The pushed path always ends the buffer. A relative push keeps the whole old buffer in front of it. An absolute push replaces the buffer. |
| `Paths.Pop` | gotham/src/handler/static_file.rs:121-124 | `pop` only ever truncates. It removes exactly one component iff the path is non-empty and its last component is not a root or prefix, and leaves the path unchanged otherwise. |
| `Paths.PopUndoesPush` | gotham/src/handler/static_file.rs:118-123 | Popping after pushing one name gives back exactly the path before the push. |
| `Paths.ParseName` | gotham/src/handler/static_file.rs:118 | Pushing a name re-parses its text. On Windows, text that starts with a drive letter and `:` parses as a path led by that drive prefix, and such a path replaces the buffer it is pushed onto (`C:dir` is drive-relative, not absolute, but it still replaces the buffer). Every other text, and every text on Unix, parses back as exactly that one name. |
| `Paths.ComponentPath` | gotham/src/handler/static_file.rs:74 | When `extend` pushes the components of a path, each component's text parses back to exactly that component iff it is not a name that starts with a drive. |
| `Paths.ExtendPath` | gotham/src/handler/static_file.rs:74 | `extend` pushes every part in turn. With no parts the buffer is unchanged, and when the last part replaces the buffer it is the whole result. |
| `Paths.FromParts` | gotham/src/handler/static_file.rs:72 | `PathBuf::from_iter` of parts none of which replaces the buffer is all their components, in order. |
| `Paths.ExtendRelative` | gotham/src/handler/static_file.rs:73-74 | Pushing parts none of which is absolute appends all their components to the buffer, losing nothing. |
| `Paths.LastAbsoluteWins` | gotham/src/handler/static_file.rs:73 | When parts are collected into a `PathBuf`, the last absolute part discards everything pushed before it. |
| `Paths.ExtendRestartsAtPrefix` | gotham/src/handler/static_file.rs:74 | Extending any buffer by the items of a path that starts with a prefix gives the same result as extending an empty one: the buffer, including `root`, is discarded. |
| `Paths.ExtendKeepsBaseOrRestarts` | gotham/src/handler/static_file.rs:73-74 | Extending a buffer either keeps the whole old buffer in front, or yields a path that starts with a root or a prefix because some part replaced the buffer. |
| `Paths.ExtendByNames` | gotham/src/handler/static_file.rs:74 | Extending `root` by the components of a path of names appends exactly those names to `root`. |
| `Paths.FileName` | gotham/src/handler/static_file.rs:111 | A path has a file name iff its last component is a name, and the file name is that name. |
| `Paths.Extension` | gotham/src/handler/static_file.rs:111 | Only a path that ends in a name has an extension, and it is the dot-free text after a dot of that name. For a path ending in a name, there is none exactly when the name has none. |
| `Paths.ExtensionOf` | gotham/src/handler/static_file.rs:111 | An extension, when present, is the dot-free text after the last dot, and the name keeps a non-empty stem before it. There is none exactly for `..`, for a name with no dot, and for a name whose only dot is its first character. |
| `Paths.ExtensionOfJoin` | gotham/src/handler/static_file.rs:111 | Conversely, `stem.ext` with a non-empty stem and a dot-free `ext` has extension `ext`. |
| `Normalize.Step` | gotham/src/handler/static_file.rs:116-125 | The step as intended, with each name appended as one name. One fold step keeps a path of names a path of names. A name adds exactly one component. Any other component never lengthens the accumulator. |
| `Normalize.StepAsWritten` | gotham/src/handler/static_file.rs:116-125 | The step as written, pushing the re-parsed name. It equals the intended step for every component except a name that starts with a drive on Windows, which replaces the accumulator by that drive path. |
| `Normalize.NormalizeFrom` | gotham/src/handler/static_file.rs:115-126 | The fold preserves "names only" and adds at most as many components as the input has names. |
| `Normalize.NormalizePath` | gotham/src/handler/static_file.rs:114-127 | The normal form holds only `Normal` components: no `..`, root, prefix or `.` survives. It is never longer than the input's count of names. |
| `Normalize.NormalizePathAsWritten` | gotham/src/handler/static_file.rs:114-127 | `normalize_path` as written, re-parsing each pushed name. On Unix it is exactly the intended normal form. |
| `Normalize.NormalizeFromAppend` | gotham/src/handler/static_file.rs:115-126 | Folding over `a + b` is folding over `a`, then continuing over `b`. |
| `Normalize.NormalizeSnoc` | gotham/src/handler/static_file.rs:116-125 | One more trailing name is appended. One more `..` removes only the most recently kept name, or nothing when none is kept. Any other trailing component changes nothing. |
| `Normalize.NormalizeWithoutParent` | gotham/src/handler/static_file.rs:116-120 | An input with no `..` normalises to exactly its names, in order. |
| `Normalize.NamesNormalizeToThemselves` | gotham/src/handler/static_file.rs:114-127 | A path of names is its own normal form. |
| `Normalize.NormalizeIdempotent` | gotham/src/handler/static_file.rs:114-127 | Normalising a normalised path returns it unchanged. |
| `Normalize.NormalizeIgnoresRootsAndDots` | gotham/src/handler/static_file.rs:125 | Removing every root, prefix and `.` from the input changes nothing, so an absolute-looking input is treated as relative. |
| `Normalize.LeadingParentDirsForgotten` | gotham/src/handler/static_file.rs:121-124 | Any number of leading `..` are forgotten and cancel none of the names after them: the fold never climbs above its start. |
| `Normalize.NormalizeDepth` | gotham/src/handler/static_file.rs:114-127 | The length of the normal form equals the input's depth. A name adds one; a `..` subtracts one but never goes below zero. |
| `Normalize.NormalizeAsWrittenAgrees` | gotham/src/handler/static_file.rs:114-127 | When no name of the input starts with a drive (always so on Unix), the fold as written gives exactly the intended normal form. |
| `Normalize.NormalizeFromKeepsNamesParsing` | gotham/src/handler/static_file.rs:114-127 | The intended fold introduces no name that starts with a drive, so its result can be pushed back without re-parsing surprises. |
| `StaticFile.ErrorStatus` | gotham/src/handler/static_file.rs:129-135 | The status is always an error code. It is 404 iff the kind is `NotFound`, 403 iff `PermissionDenied`, and 500 iff any other kind. |
| `StaticFile.MimeForPath` | gotham/src/handler/static_file.rs:110-112 | The type is the guess for the path's extension when there is one, and `application/octet-stream` otherwise. |
| `StaticFile.FileResponse` | gotham/src/handler/static_file.rs:98-106 | The reply is served iff the read succeeded. It then carries exactly the bytes read and the path's MIME type; otherwise it carries the error kind's status. |
| `StaticFile.ServedPath` | gotham/src/handler/static_file.rs:71-76 | The intended served path: `root` extended by the normal form of the collected parts, each name as one name. It always lies within the root. |
| `StaticFile.ServedPathAsWritten` | gotham/src/handler/static_file.rs:70-75 | The served path as written. Whenever the normal form as written consists of names none of which starts with a drive, it is `root` followed by that normal form. |
| `StaticFile.Handle` | gotham/src/handler/static_file.rs:68-78 | `FileSystemHandler::handle` with the intended join. Its reply is the file response for some path within the root. |
| `StaticFile.HandleAsWritten` | gotham/src/handler/static_file.rs:68-78 | `FileSystemHandler::handle` as written. On Unix too, its reply is the file response for some path within the root. |
| `StaticFile.ServedPathWithinRoot` | gotham/src/handler/static_file.rs:71-76 | For every sequence of parts, the served path is `root` followed by the normal form of the collected parts. It is therefore `root` or beneath it, through names only. |
| `StaticFile.NoEscape` | gotham/src/handler/static_file.rs:71-76 | Corollary of `StaticFile.ServedPathWithinRoot`: no sequence of parts yields a path, through the intended join, that is not within the root. |
| `StaticFile.ServedPathOfRelativeParts` | gotham/src/handler/static_file.rs:72-75 | With no absolute part, the intended served path is `root` followed by the normal form of all the parts' components, in order. The served path as written on Unix is the same. |
| `StaticFile.ServedPathAfterAbsolutePart` | gotham/src/handler/static_file.rs:73-74 | An absolute part discards earlier parts. The intended served path is `root` followed by the normal form of that part and the parts after it, and so is the served path as written on Unix. |
| `StaticFile.ServedPathAsWrittenAgrees` | gotham/src/handler/static_file.rs:70-75 | On either platform, when no collected name starts with a drive, the join as written (re-parsing each name when pushing and extending) serves exactly the intended path. |
| `StaticFile.ServedPathAsWrittenOnUnix` | gotham/src/handler/static_file.rs:70-75 | On Unix the join as written serves the intended path for every sequence of parts, so it is always within the root. |
| `StaticFile.HandleAsWrittenOnUnix` | gotham/src/handler/static_file.rs:68-78 | On Unix the handler as written gives the same reply as the intended handler for every request, file system and MIME table. |
| `StaticFile.HandleReadsOnlyWithinRoot` | gotham/src/handler/static_file.rs:70-78 | Two file systems that agree on every path within the root give the same reply for every request, both for the intended handler and for the handler as written on Unix. |
| `StaticFile.HandleStatus` | gotham/src/handler/static_file.rs:98-106 | The reply is 200 exactly when reading the served path succeeds. Otherwise it is 404, 403 or 500, by error kind, in both directions. |
| `StaticFile.NothingWithinRootIsNotFound` | gotham/src/handler/static_file.rs:199-222 | If no file exists within the root, every request is answered 404, whatever exists outside it: by the intended handler, and by the handler as written on Unix. |
| `StaticFile.ContentTypeByExtension` | gotham/src/handler/static_file.rs:110-112 | A file `stem.ext` beneath any root is typed by the table's guess for `ext`, or as an octet stream when the table has none. |
| `TraversalVectors.DotDotSegmentLandsWithinRoot` | gotham/src/handler/static_file.rs:201 | `../dir/file` as three segments is served as `root/dir/file`. |
| `TraversalVectors.DotDotInsidePartLandsWithinRoot` | gotham/src/handler/static_file.rs:202-207 | A decoded part `../dir` followed by `file` is also served as `root/dir/file`, by the intended join and by the code as written on Unix. |
| `TraversalVectors.BackslashNameLandsWithinRoot` | gotham/src/handler/static_file.rs:205 | Where `\` is no separator, `..\private_files` is one name and is served beneath the root. |
| `TraversalVectors.AbsolutePartLandsWithinRoot` | gotham/src/handler/static_file.rs:212 | The encoded tail `%2fetc%2fpasswd`, decoded into one absolute part `/etc/passwd`, is served as `root/etc/passwd`, also when it follows another part. |
| `TraversalVectors.SlashSeparatedSegmentsLandWithinRoot` | gotham/src/handler/static_file.rs:212 | The tail `//etc/passwd` as written in the test reaches the handler as the name parts `etc` and `passwd`, served as `root/etc/passwd`. |
| `TraversalVectors.TraversalAttemptsAreNotFound` | gotham/src/handler/static_file.rs:199-222 | With the test root and a file system whose only file is `private_files/secret.txt` next to the root, every URL tail is answered 404: by the intended handler, and by the handler as written on Unix and on Windows. |
| `TraversalVectors.AsWrittenMissesSecret` | gotham/src/handler/static_file.rs:199-222 | On either platform the served path as written never equals the secret next to the test root. A drive can escape the root, but it cannot reach a path that starts with a name. |
| `TraversalVectors.FileNameLandsWithinRoot` | gotham/src/handler/static_file.rs:179-182 | A single plain name is served as `root/name`. |
| `TraversalVectors.DocumentIsServedWithItsType` | gotham/src/handler/static_file.rs:162-195 | A file `stem.ext` named by the URL tail, such as `doc.html`, is served with exactly its bytes and the type the table gives `ext`. |
| `DriveNameFinding.FoldRestartsAtDrive` | gotham/src/handler/static_file.rs:116-119 | On Windows the fold as written over the names `a`, `C:`, `dir`, `file` forgets `a` and yields `C:` followed by `dir` and `file`. |
| `DriveNameFinding.ExtendRestartsAtDrive` | gotham/src/handler/static_file.rs:74 | `extend` as written of the path `C:`, `dir`, `file` (drive `C:` followed by two plain names) onto any root yields exactly that path: the root is discarded. |
| `DriveNameFinding.DriveNameEscapesRoot` | gotham/src/handler/static_file.rs:70-75 | On Windows, the part `a\C:\dir\file` is served as written at `C:dir\file`, outside every root that is not a drive-relative directory on `C:`, while the intended join serves it within the root. |
| `DriveNameFinding.WinIniEscapesRoot` | gotham/src/handler/static_file.rs:70-75 | The concrete part `a\C:\Windows\win.ini` is served as written at `C:Windows\win.ini`, which is not within any root other than a drive-relative directory on `C:`. |
| `DriveNameFinding.DriveNameReadsOutsideRoot` | gotham/src/handler/static_file.rs:68-106 | With no file within the root (not itself drive-relative on drive `d`) and a file at `d` followed by `dir` and `file`, the intended handler answers 404 to the part `a\d\dir\file`, but the handler as written on Windows serves that file's bytes with its MIME type. |

## Left out

- Percent-decoding of URL segments is not modelled. The router does it before the handler sees `parts`, and that code is not part of this model. The traversal vectors appear in the decoded forms a decoder can produce. The double-encoded and overlong-UTF-8 vectors (lines 208-211) are covered only by the all-inputs lemmas.
- Splitting a part into components (`Path::components`) is not modelled. Each part arrives as its component sequence. The canonicalisation `components` applies is not modelled either: it drops interior `.` and collapses repeated separators. This does not change the normal form, which drops `.` anyway.
- `Paths.Push` treats a part that starts with a root or a prefix as replacing the buffer. On Windows, a root without a prefix keeps the buffer's prefix. That platform detail is not modelled.
- Asynchronous file I/O is a parameter. That covers `tokio_fs` open, the metadata read and `read_to_end` in `create_file_response` (lines 90-97). The file system maps a path to its whole contents or to the first error kind. The pre-sizing of the buffer from the metadata length has no observable effect and is omitted.
- The internals of the `mime_guess` crate are a parameter: a partial function of the extension. The crate is foreign code.
- Framework plumbing is left out: response construction, `State`, the conversion of a handler error into a response, and serde deserialisation of `FilePathExtractor`. So is its `StaticResponseExtender` answer of 400 when the path cannot be extracted (lines 137-150).
- The `NewHandler` impls (lines 53-67) only clone the handler. `FileHandler::handle` (lines 81-85) passes a fixed path to the same response function, which `StaticFile.FileResponse` models.
- The route builder in `gotham/src/router/builder/single.rs` only wires handler construction into routes. It has no logic of its own to state.
- Entity tags, conditional requests (`If-None-Match`, `If-Modified-Since`, 304 replies) and precompressed-variant selection by `Accept-Encoding` are not modelled. No code for them exists in the handler.
- Normalize.Step: appends each name as one name, which is the intended step. It is the code as written only on Unix, or on Windows for names that do not start with a drive. `Normalize.StepAsWritten` models the re-parse; see "## Findings".
- StaticFile.ServedPathWithinRoot: holds of the code as written on Unix, and on Windows when no collected name starts with a drive (`StaticFile.ServedPathAsWrittenAgrees`). It does not hold of the code as written for Windows names such as `C:`; see "## Findings".
- StaticFile.NoEscape: the same restriction as `StaticFile.ServedPathWithinRoot`, of which it is a corollary.
- StaticFile.HandleReadsOnlyWithinRoot: stated of `StaticFile.Handle`, which uses the intended join, and of the handler as written on Unix only. On Windows the handler as written reads outside the root (`DriveNameFinding.DriveNameReadsOutsideRoot`).
- StaticFile.NothingWithinRootIsNotFound: stated of `StaticFile.Handle` and of the handler as written on Unix only. On Windows the handler as written can answer 200 from a file outside the root (`DriveNameFinding.DriveNameReadsOutsideRoot`).
- StaticFile.ServedPathOfRelativeParts: stated of the intended join, and of the code as written on Unix only. On Windows a relative part such as `a\C:\dir\file` is served as written at `C:dir\file` (`DriveNameFinding.DriveNameEscapesRoot`).
- StaticFile.ServedPathAfterAbsolutePart: stated of the intended join, and of the code as written on Unix only. On Windows an absolute part such as `\C:\x` is served as written at `C:x`.
- TraversalVectors.DotDotInsidePartLandsWithinRoot: stated for every `dir` of the intended join, and of the code as written on Unix only. On Windows, when `dir` is a drive such as `C:` (the part `..\C:`), the code as written serves `C:` followed by `file`.
- The re-parse of a name's text (`Paths.ParseName`) recognises only the drive-letter prefix `X:`. The other Windows prefixes (`\\server\share`, `\\?\`) and separators inside a name cannot arise from one component that `components` has already split, so they are not modelled.

## Findings

| source | as written | input that shows it | evidently intended | confidence | as-written member | corrected member |
|---|---|---|---|---|---|---|
| gotham/src/handler/static_file.rs:116-119 | `result.push(x)` and then `base_path.extend` (line 74) re-parse each name, and on Windows a name that starts with a drive replaces the buffer, root included | on Windows, the URL part `a\C:\Windows\win.ini`, whose components are the names `a`, `C:`, `Windows`, `win.ini`; it is served at `C:Windows\win.ini` | each kept name appended beneath the root as one name, so the served path stays within the root | medium; not executed | DriveNameFinding.DriveNameEscapesRoot | StaticFile.ServedPathWithinRoot |

=== FILE: finding.dfy ===
/** On Windows, a name that starts with a drive lets the code as written
    leave the root. `normalize_path` pushes each name as text, and
    `PathBuf::push` replaces the buffer with any text that carries a prefix.
    A URL part such as `a\C:\Windows\win.ini` splits into the names `a`,
    `C:`, `Windows` and `win.ini`. The fold then drops `a`, restarts at the
    drive `C:` and yields `C:Windows\win.ini`. `extend` pushes `C:` onto
    the root, which replaces the root as well. */
module DriveNameFinding {
  import opened Paths
  import opened Normalize
  import opened Wrappers
  import opened StaticFile
  import Io

  /** A name without a drive is appended by the fold as written. */
  lemma FoldPlainName(acc: Path, n: string, rest: Path)
    requires !HasDrivePrefix(Windows, n)
    ensures NormalizeAsWrittenFrom(Windows, acc, [Normal(n)] + rest)
            == NormalizeAsWrittenFrom(Windows, acc + [Normal(n)], rest)
  {
    var cs := [Normal(n)] + rest;
    assert cs[0] == Normal(n) && cs[1..] == rest;
    assert ParseName(Windows, n) == [Normal(n)];
  }

  /** A bare drive name restarts the fold as written at that drive. */
  lemma FoldDriveName(acc: Path, d: string, rest: Path)
    requires HasDrivePrefix(Windows, d) && |d| == 2
    ensures NormalizeAsWrittenFrom(Windows, acc, [Normal(d)] + rest)
            == NormalizeAsWrittenFrom(Windows, [Prefix(d)], rest)
  {
    var cs := [Normal(d)] + rest;
    assert cs[0] == Normal(d) && cs[1..] == rest;
    assert d[..2] == d && d[2..] == "";
    assert ParseName(Windows, d) == [Prefix(d)];
  }

  /** The fold as written restarts at a name that carries a drive: what was
      kept before it is lost, and the drive leads the result. */
  lemma FoldRestartsAtDrive(a: string, d: string, dir: string, file: string)
    requires HasDrivePrefix(Windows, d) && |d| == 2
    requires !HasDrivePrefix(Windows, a) && !HasDrivePrefix(Windows, dir)
             && !HasDrivePrefix(Windows, file)
    ensures NormalizePathAsWritten(Windows, [Normal(a), Normal(d), Normal(dir), Normal(file)])
            == [Prefix(d), Normal(dir), Normal(file)]
  {
    var r3: Path := [Normal(file)];
    var r2 := [Normal(dir)] + r3;
    var r1 := [Normal(d)] + r2;
    var p := [Normal(a)] + r1;
    assert p == [Normal(a), Normal(d), Normal(dir), Normal(file)];
    assert r3 == [Normal(file)] + [];
    assert [Prefix(d)] + [Normal(dir)] == [Prefix(d), Normal(dir)];
    assert [Prefix(d), Normal(dir)] + [Normal(file)] == [Prefix(d), Normal(dir), Normal(file)];
    FoldPlainName([], a, r1);
    FoldDriveName([] + [Normal(a)], d, r2);
    FoldPlainName([Prefix(d)], dir, r3);
    FoldPlainName([Prefix(d), Normal(dir)], file, []);
  }

  /** `extend` as written replaces the root when the first component it
      pushes is a drive. */
  lemma ExtendRestartsAtDrive(root: Path, d: string, dir: string, file: string)
    requires HasDrivePrefix(Windows, d) && |d| == 2
    requires !HasDrivePrefix(Windows, dir) && !HasDrivePrefix(Windows, file)
    ensures var n := [Prefix(d), Normal(dir), Normal(file)];
            ExtendPath(root, Reparse(Windows, n)) == n
  {
    var n := [Prefix(d), Normal(dir), Normal(file)];
    var pushed := Reparse(Windows, n);
    assert pushed[0] == [Prefix(d)];
    assert pushed[1] == ParseName(Windows, dir) == [Normal(dir)];
    assert pushed[2] == ParseName(Windows, file) == [Normal(file)];
    assert pushed == [[Prefix(d)], [Normal(dir)], [Normal(file)]];
    assert AllRelative(pushed[1..]) by {
      assert pushed[1..] == [[Normal(dir)], [Normal(file)]];
    }
    LastAbsoluteWins(root, pushed, 0);
    assert pushed[0..] == pushed;
    ConcatOfThree([Prefix(d)], [Normal(dir)], [Normal(file)]);
  }

  /** `root` is the drive `d` followed by names only, a drive-relative
      directory such as `C:srv`. */
  predicate DriveRelativeOn(root: Path, d: string) {
    |root| > 0 && root[0] == Prefix(d) && AllNormal(root[1..])
  }

  /** A path that is the drive `d` followed by names is within no root
      other than a drive-relative directory on `d`. */
  lemma PrefixLedIsOutsideRoot(root: Path, d: string, p: Path)
    requires |p| > 0 && p[0] == Prefix(d) && AllNormal(p[1..])
    requires !DriveRelativeOn(root, d)
    ensures !WithinRoot(root, p)
  {
  }

  /** A single relative part is collected unchanged. */
  lemma FromSinglePart(p: Path)
    requires !IsAbsolute(p)
    ensures FromParts([p]) == p
  {
    var parts := [p];
    assert AllRelative(parts);
    ExtendRelative([], parts);
    assert parts[1..] == [];
    assert Concat(parts) == p + [] == p;
  }

  lemma ServedOnDrive(root: Path, a: string, d: string, dir: string, file: string)
    requires HasDrivePrefix(Windows, d) && |d| == 2
    requires !HasDrivePrefix(Windows, a) && !HasDrivePrefix(Windows, dir)
             && !HasDrivePrefix(Windows, file)
    ensures ServedPathAsWritten(Windows, root, [[Normal(a), Normal(d), Normal(dir), Normal(file)]])
            == [Prefix(d), Normal(dir), Normal(file)]
  {
    var p := [Normal(a), Normal(d), Normal(dir), Normal(file)];
    FromSinglePart(p);
    FoldRestartsAtDrive(a, d, dir, file);
    ExtendRestartsAtDrive(root, d, dir, file);
  }

  /** The parts `[a, C:, dir, file]` (the URL part `a\C:\dir\file` split
      by Windows rules) are served as written on drive `C:`, outside the
      root unless the root is itself a drive-relative directory on `C:`; the
      intended join serves them within the root. */
  lemma DriveNameEscapesRoot(root: Path, a: string, d: string, dir: string, file: string)
    requires HasDrivePrefix(Windows, d) && |d| == 2 && !DriveRelativeOn(root, d)
    requires !HasDrivePrefix(Windows, a) && !HasDrivePrefix(Windows, dir)
             && !HasDrivePrefix(Windows, file)
    ensures var parts := [[Normal(a), Normal(d), Normal(dir), Normal(file)]];
            && ServedPathAsWritten(Windows, root, parts) == [Prefix(d), Normal(dir), Normal(file)]
            && !WithinRoot(root, ServedPathAsWritten(Windows, root, parts))
            && WithinRoot(root, ServedPath(root, parts))
  {
    var parts := [[Normal(a), Normal(d), Normal(dir), Normal(file)]];
    ServedOnDrive(root, a, d, dir, file);
    var served := [Prefix(d), Normal(dir), Normal(file)];
    assert AllNormal(served[1..]) by { assert served[1..] == [Normal(dir), Normal(file)]; }
    PrefixLedIsOutsideRoot(root, d, served);
    ServedPathWithinRoot(root, parts);
  }

  /** The drive `C:` is one such name. */
  lemma DriveCQualifies()
    ensures HasDrivePrefix(Windows, "C:")
  {
    assert "C:"[0] == 'C' && "C:"[1] == ':';
  }

  /** The URL part `a\C:\Windows\win.ini` is served as written at
      `C:Windows\win.ini`, outside the root. */
  lemma WinIniEscapesRoot(root: Path)
    requires !DriveRelativeOn(root, "C:")
    ensures var parts := [[Normal("a"), Normal("C:"), Normal("Windows"), Normal("win.ini")]];
            && ServedPathAsWritten(Windows, root, parts)
               == [Prefix("C:"), Normal("Windows"), Normal("win.ini")]
            && !WithinRoot(root, ServedPathAsWritten(Windows, root, parts))
  {
    DriveCQualifies();
    assert "Windows"[1] != ':' && "win.ini"[1] != ':' && |"a"| < 2;
    DriveNameEscapesRoot(root, "a", "C:", "Windows", "win.ini");
  }

  /** The handler as written reads a file outside the root: with no file
      within the root, the intended handler answers 404, but the code as
      written serves the file on drive `d`. */
  lemma DriveNameReadsOutsideRoot(root: Path, a: string, d: string, dir: string, file: string,
                                  fs: FileSystem, guess: MimeGuess, contents: Bytes)
    requires HasDrivePrefix(Windows, d) && |d| == 2 && !DriveRelativeOn(root, d)
    requires !HasDrivePrefix(Windows, a) && !HasDrivePrefix(Windows, dir)
             && !HasDrivePrefix(Windows, file)
    requires forall p :: WithinRoot(root, p) ==> fs(p) == Failure(Io.NotFound)
    requires fs([Prefix(d), Normal(dir), Normal(file)]) == Success(contents)
    ensures var parts := [[Normal(a), Normal(d), Normal(dir), Normal(file)]];
            && Handle(root, parts, fs, guess).Status().Code() == 404
            && HandleAsWritten(Windows, root, parts, fs, guess)
               == Served(contents, MimeForPath([Prefix(d), Normal(dir), Normal(file)], guess))
  {
    var parts := [[Normal(a), Normal(d), Normal(dir), Normal(file)]];
    var served := [Prefix(d), Normal(dir), Normal(file)];
    ServedOnDrive(root, a, d, dir, file);
    assert HandleAsWritten(Windows, root, parts, fs, guess) == FileResponse(served, fs(served), guess);
    NothingWithinRootIsNotFound(root, parts, fs, guess);
  }
}

=== FILE: io_http.dfy ===
/** The slice of `std::io` the handler observes: the kind of an I/O error. */
module Io {

  type byte = x: int | 0 <= x < 256

  /** `std::io::ErrorKind`. */
  datatype ErrorKind =
    | NotFound
    | PermissionDenied
    | ConnectionRefused
    | ConnectionReset
    | ConnectionAborted
    | NotConnected
    | AddrInUse
    | AddrNotAvailable
    | BrokenPipe
    | AlreadyExists
    | WouldBlock
    | InvalidInput
    | InvalidData
    | TimedOut
    | WriteZero
    | Interrupted
    | Other
    | UnexpectedEof
}

/** The HTTP status codes the handler can produce. */
module Http {

  datatype StatusCode = Ok | Forbidden | NotFound | InternalServerError {

    /** The numeric status code sent on the wire. */
    function Code(): nat {
      match this
      case Ok => 200
      case Forbidden => 403
      case NotFound => 404
      case InternalServerError => 500
    }

    /** A client (4xx) or server (5xx) error. */
    predicate IsError() {
      400 <= Code() < 600
    }
  }
}

=== FILE: normalize.dfy ===
/** `normalize_path`: a left fold over the components of the untrusted path
    that keeps names, lets `..` drop the most recently kept name, and drops
    roots, prefixes and `.`. */
module Normalize {
  import opened Paths

  /** One step of the fold: a name is appended as one name, `..` pops,
      anything else is ignored. This is the step as intended; the code's own
      `push(x)` re-parses the name, which `StepAsWritten` models and which
      agrees with this step on Unix (`NormalizeAsWrittenAgrees`). */
  function Step(acc: Path, c: Component): (r: Path)
    ensures AllNormal(acc) ==> AllNormal(r)
    ensures c.Normal? ==> |r| == |acc| + 1
    ensures !c.Normal? ==> |r| <= |acc|
  {
    match c
    case Normal(_) => Push(acc, [c])
    case ParentDir => Pop(acc)
    case _ => acc
  }

  /** The fold, started from the accumulator `acc`. */
  function NormalizeFrom(acc: Path, cs: Path): (r: Path)
    ensures AllNormal(acc) ==> AllNormal(r)
    ensures |r| <= |acc| + CountNormal(cs)
    decreases |cs|
  {
    if |cs| == 0 then acc else NormalizeFrom(Step(acc, cs[0]), cs[1..])
  }

  /** `normalize_path`: the fold from an empty buffer. Only names survive,
      and never more of them than the input held. */
  function NormalizePath(cs: Path): (r: Path)
    ensures AllNormal(r)
    ensures |r| <= CountNormal(cs)
  {
    NormalizeFrom([], cs)
  }

  /** The step as written: `result.push(x)` pushes the text of the name, so
      on Windows a name that starts with a drive (`C:`) replaces the
      accumulator with that drive-relative path instead of being appended. */
  function StepAsWritten(platform: Platform, acc: Path, c: Component): (r: Path)
    ensures !c.Normal? || !HasDrivePrefix(platform, c.name) ==> r == Step(acc, c)
    ensures c.Normal? && HasDrivePrefix(platform, c.name) ==> r == ParseName(platform, c.name)
  {
    match c
    case Normal(x) => Push(acc, ParseName(platform, x))
    case ParentDir => Pop(acc)
    case _ => acc
  }

  function NormalizeAsWrittenFrom(platform: Platform, acc: Path, cs: Path): Path
    decreases |cs|
  {
    if |cs| == 0 then acc
    else NormalizeAsWrittenFrom(platform, StepAsWritten(platform, acc, cs[0]), cs[1..])
  }

  /** `normalize_path` exactly as written, on the given platform. Unix has
      no drives, so there it is the intended normal form. */
  function NormalizePathAsWritten(platform: Platform, cs: Path): (r: Path)
    ensures platform == Unix ==> r == NormalizePath(cs)
  {
    if platform == Unix then
      NormalizeAsWrittenFromAgrees(platform, [], cs);
      NormalizeAsWrittenFrom(platform, [], cs)
    else NormalizeAsWrittenFrom(platform, [], cs)
  }

  /** Every name of the path parses back to itself on the platform. */
  predicate NamesParseAsNames(platform: Platform, cs: Path) {
    forall i :: 0 <= i < |cs| && cs[i].Normal? ==> !HasDrivePrefix(platform, cs[i].name)
  }

  // ---------------------------------------------------------------------
  // Reference definitions

  /** The number of names in a path. */
  function CountNormal(cs: Path): nat {
    if |cs| == 0 then 0 else (if cs[0].Normal? then 1 else 0) + CountNormal(cs[1..])
  }

  /** The names of a path, in order. */
  function KeepNormal(cs: Path): (r: Path)
    ensures AllNormal(r)
  {
    if |cs| == 0 then []
    else if cs[0].Normal? then [cs[0]] + KeepNormal(cs[1..])
    else KeepNormal(cs[1..])
  }

  /** The path with every root, prefix and `.` removed. */
  function DropIgnored(cs: Path): Path {
    if |cs| == 0 then []
    else if cs[0].Normal? || cs[0].ParentDir? then [cs[0]] + DropIgnored(cs[1..])
    else DropIgnored(cs[1..])
  }

  predicate NoParentDir(cs: Path) {
    forall i :: 0 <= i < |cs| ==> !cs[i].ParentDir?
  }

  /** Depth counter: names go one level down, `..` one level up but never
      above the start. */
  function DepthFrom(d: nat, cs: Path): nat
    decreases |cs|
  {
    if |cs| == 0 then d
    else if cs[0].Normal? then DepthFrom(d + 1, cs[1..])
    else if cs[0].ParentDir? then DepthFrom(if d == 0 then 0 else d - 1, cs[1..])
    else DepthFrom(d, cs[1..])
  }

  function ParentDirs(k: nat): (r: Path)
    ensures |r| == k && forall i :: 0 <= i < k ==> r[i] == ParentDir
  {
    seq(k, _ => ParentDir)
  }

  // ---------------------------------------------------------------------
  // Lemmas

  /** Folding over `a + b` is folding over `a`, then over `b`. */
  lemma {:induction false} NormalizeFromAppend(acc: Path, a: Path, b: Path)
    ensures NormalizeFrom(acc, a + b) == NormalizeFrom(NormalizeFrom(acc, a), b)
    decreases |a|
  {
    if |a| == 0 {
      assert a + b == b;
    } else {
      assert (a + b)[0] == a[0];
      assert (a + b)[1..] == a[1..] + b;
      NormalizeFromAppend(Step(acc, a[0]), a[1..], b);
    }
  }

  /** What one more trailing component does to the normal form: a name is
      appended, `..` removes only the most recently kept name (and nothing
      when there is none), and any other component changes nothing. */
  lemma NormalizeSnoc(cs: Path, c: Component)
    ensures c.Normal? ==> NormalizePath(cs + [c]) == NormalizePath(cs) + [c]
    ensures c.ParentDir? ==>
      var n := NormalizePath(cs);
      NormalizePath(cs + [c]) == (if |n| == 0 then [] else n[..|n| - 1])
    ensures !c.Normal? && !c.ParentDir? ==> NormalizePath(cs + [c]) == NormalizePath(cs)
  {
    NormalizeFromAppend([], cs, [c]);
    assert NormalizeFrom(NormalizePath(cs), [c]) == Step(NormalizePath(cs), c);
  }

  lemma NoParentDirTail(cs: Path)
    requires |cs| > 0 && NoParentDir(cs)
    ensures NoParentDir(cs[1..])
  {
    forall i | 0 <= i < |cs[1..]| ensures !cs[1..][i].ParentDir? {
      assert cs[1..][i] == cs[i + 1];
    }
  }

  /** With no `..` in the input, the fold keeps exactly the names, in order. */
  lemma {:induction false} NormalizeFromWithoutParent(acc: Path, cs: Path)
    requires NoParentDir(cs)
    ensures NormalizeFrom(acc, cs) == acc + KeepNormal(cs)
    decreases |cs|
  {
    if |cs| > 0 {
      assert !cs[0].ParentDir?;
      NoParentDirTail(cs);
      NormalizeFromWithoutParent(Step(acc, cs[0]), cs[1..]);
      if cs[0].Normal? {
        assert Step(acc, cs[0]) == acc + [cs[0]];
        assert KeepNormal(cs) == [cs[0]] + KeepNormal(cs[1..]);
        assert acc + [cs[0]] + KeepNormal(cs[1..]) == acc + ([cs[0]] + KeepNormal(cs[1..]));
      } else {
        assert Step(acc, cs[0]) == acc;
        assert KeepNormal(cs) == KeepNormal(cs[1..]);
      }
    }
  }

  lemma NormalizeWithoutParent(cs: Path)
    requires NoParentDir(cs)
    ensures NormalizePath(cs) == KeepNormal(cs)
  {
    NormalizeFromWithoutParent([], cs);
  }

  /** A path of names keeps all of its names. */
  lemma {:induction false} KeepNormalOfNames(cs: Path)
    requires AllNormal(cs)
    ensures KeepNormal(cs) == cs
    decreases |cs|
  {
    if |cs| > 0 {
      assert cs[0].Normal?;
      assert AllNormal(cs[1..]) by {
        forall i | 0 <= i < |cs[1..]| ensures cs[1..][i].Normal? {
          assert cs[1..][i] == cs[i + 1];
        }
      }
      KeepNormalOfNames(cs[1..]);
      assert cs == [cs[0]] + cs[1..];
    }
  }

  /** A path of names is its own normal form. */
  lemma NamesNormalizeToThemselves(cs: Path)
    requires AllNormal(cs)
    ensures NormalizePath(cs) == cs
  {
    assert NoParentDir(cs) by {
      forall i | 0 <= i < |cs| ensures !cs[i].ParentDir? {
        assert cs[i].Normal?;
      }
    }
    NormalizeWithoutParent(cs);
    KeepNormalOfNames(cs);
  }

  /** Normalising is idempotent. */
  lemma NormalizeIdempotent(cs: Path)
    ensures NormalizePath(NormalizePath(cs)) == NormalizePath(cs)
  {
    NamesNormalizeToThemselves(NormalizePath(cs));
  }

  /** Roots, prefixes and `.` anywhere in the input are simply discarded, so
      an absolute-looking path is treated as a relative one. */
  lemma {:induction false} NormalizeFromIgnoresRootsAndDots(acc: Path, cs: Path)
    ensures NormalizeFrom(acc, cs) == NormalizeFrom(acc, DropIgnored(cs))
    decreases |cs|
  {
    if |cs| > 0 {
      NormalizeFromIgnoresRootsAndDots(Step(acc, cs[0]), cs[1..]);
      if cs[0].Normal? || cs[0].ParentDir? {
        var d := [cs[0]] + DropIgnored(cs[1..]);
        assert d[0] == cs[0] && d[1..] == DropIgnored(cs[1..]);
      }
    }
  }

  lemma NormalizeIgnoresRootsAndDots(cs: Path)
    ensures NormalizePath(cs) == NormalizePath(DropIgnored(cs))
    ensures NormalizePath([RootDir] + cs) == NormalizePath(cs)
  {
    NormalizeFromIgnoresRootsAndDots([], cs);
    var r := [RootDir] + cs;
    assert r[0] == RootDir && r[1..] == cs;
  }

  /** `..` at the very start cannot climb above the starting point: any number
      of leading `..` are forgotten and cancel none of the names after them. */
  lemma {:induction false} LeadingParentDirsForgotten(k: nat, cs: Path)
    ensures NormalizePath(ParentDirs(k) + cs) == NormalizePath(cs)
    decreases k
  {
    if k > 0 {
      var p := ParentDirs(k) + cs;
      assert p[0] == ParentDir;
      assert p[1..] == ParentDirs(k - 1) + cs;
      assert |p| > 0;
      assert NormalizeFrom([], p) == NormalizeFrom(Step([], p[0]), p[1..]);
      assert Step([], ParentDir) == [];
      LeadingParentDirsForgotten(k - 1, cs);
      assert NormalizePath(p) == NormalizePath(p[1..]);
    } else {
      assert ParentDirs(k) + cs == cs;
    }
  }

  /** The length of the normal form is the clamped depth of the input. */
  lemma {:induction false} NormalizeFromDepth(acc: Path, cs: Path)
    requires AllNormal(acc)
    ensures |NormalizeFrom(acc, cs)| == DepthFrom(|acc|, cs)
    decreases |cs|
  {
    if |cs| > 0 {
      NormalizeFromDepth(Step(acc, cs[0]), cs[1..]);
      if cs[0].ParentDir? && |acc| > 0 {
        assert acc[|acc| - 1].Normal?;
      }
    }
  }

  lemma NormalizeDepth(cs: Path)
    ensures |NormalizePath(cs)| == DepthFrom(0, cs)
  {
    NormalizeFromDepth([], cs);
  }

  // ---------------------------------------------------------------------
  // The fold as written

  lemma {:induction false} NormalizeAsWrittenFromAgrees(platform: Platform, acc: Path, cs: Path)
    requires NamesParseAsNames(platform, cs)
    ensures NormalizeAsWrittenFrom(platform, acc, cs) == NormalizeFrom(acc, cs)
    decreases |cs|
  {
    if |cs| > 0 {
      assert cs[0].Normal? ==> !HasDrivePrefix(platform, cs[0].name);
      assert NamesParseAsNames(platform, cs[1..]) by {
        forall i | 0 <= i < |cs[1..]| && cs[1..][i].Normal?
          ensures !HasDrivePrefix(platform, cs[1..][i].name)
        {
          assert cs[1..][i] == cs[i + 1];
        }
      }
      NormalizeAsWrittenFromAgrees(platform, Step(acc, cs[0]), cs[1..]);
    }
  }

  /** When no name of the input starts with a drive, and so always on Unix,
      the fold as written is the intended fold. */
  lemma NormalizeAsWrittenAgrees(platform: Platform, cs: Path)
    requires NamesParseAsNames(platform, cs)
    ensures NormalizePathAsWritten(platform, cs) == NormalizePath(cs)
  {
    NormalizeAsWrittenFromAgrees(platform, [], cs);
  }

  /** The intended fold keeps only names taken from its input, so it never
      introduces a name that starts with a drive. */
  lemma {:induction false} NormalizeFromKeepsNamesParsing(platform: Platform, acc: Path, cs: Path)
    requires NamesParseAsNames(platform, acc) && NamesParseAsNames(platform, cs)
    ensures NamesParseAsNames(platform, NormalizeFrom(acc, cs))
    decreases |cs|
  {
    if |cs| > 0 {
      var next := Step(acc, cs[0]);
      assert NamesParseAsNames(platform, next) by {
        forall i | 0 <= i < |next| && next[i].Normal?
          ensures !HasDrivePrefix(platform, next[i].name)
        {
          if cs[0].Normal? {
            assert next == acc + [cs[0]];
            if i < |acc| { assert next[i] == acc[i]; } else { assert next[i] == cs[0]; }
          } else {
            assert next == acc[..|next|];
            assert next[i] == acc[i];
          }
        }
      }
      assert NamesParseAsNames(platform, cs[1..]) by {
        forall i | 0 <= i < |cs[1..]| && cs[1..][i].Normal?
          ensures !HasDrivePrefix(platform, cs[1..][i].name)
        {
          assert cs[1..][i] == cs[i + 1];
        }
      }
      NormalizeFromKeepsNamesParsing(platform, next, cs[1..]);
    }
  }
}

=== FILE: paths.dfy ===
/** The lexical path model of `std::path`: a path is the sequence of
    components that `Path::components` yields, and `PathBuf::push`,
    `PathBuf::pop`, `Path::file_name`, `Path::extension` and the
    `FromIterator`/`Extend` impls of `PathBuf` are functions on it. */
module Paths {
  import opened Wrappers

  /** One component of a path. */
  datatype Component =
    | Prefix(prefix: string)   // a Windows drive or UNC prefix such as `C:`
    | RootDir                  // the separator that makes a path absolute
    | CurDir                   // `.`
    | ParentDir                // `..`
    | Normal(name: string)     // every other name

  type Path = seq<Component>

  /** A path that replaces, rather than extends, the buffer it is pushed onto. */
  predicate IsAbsolute(p: Path) {
    |p| > 0 && (p[0].RootDir? || p[0].Prefix?)
  }

  /** A path made of names only: no root, no prefix, no `.` and no `..`. */
  predicate AllNormal(p: Path) {
    forall i :: 0 <= i < |p| ==> p[i].Normal?
  }

  /** No part of the sequence is absolute. */
  predicate AllRelative(parts: seq<Path>) {
    forall i :: 0 <= i < |parts| ==> !IsAbsolute(parts[i])
  }

  /** `PathBuf::push`: an absolute path replaces the buffer, any other path
      is appended to it. */
  function Push(base: Path, p: Path): (r: Path)
    ensures |r| >= |p| && r[|r| - |p|..] == p
    ensures !IsAbsolute(p) ==> |r| == |base| + |p| && r[..|base|] == base
    ensures IsAbsolute(p) ==> |r| == |p|
  {
    if IsAbsolute(p) then p else base + p
  }

  /** `PathBuf::pop`: truncate to `Path::parent`, which exists exactly when
      the last component is a name, `.` or `..`; otherwise nothing changes. */
  function Pop(p: Path): (r: Path)
    ensures |r| <= |p| && r == p[..|r|]
    ensures |r| == |p| - 1 <==>
              |p| > 0 && !p[|p| - 1].RootDir? && !p[|p| - 1].Prefix?
    ensures |r| != |p| - 1 ==> r == p
  {
    if |p| > 0 && (p[|p| - 1].Normal? || p[|p| - 1].CurDir? || p[|p| - 1].ParentDir?)
    then p[..|p| - 1]
    else p
  }

  /** Popping undoes pushing one name. */
  lemma PopUndoesPush(p: Path, name: string)
    ensures Pop(Push(p, [Normal(name)])) == p
  {
    var q := p + [Normal(name)];
    assert !IsAbsolute([Normal(name)]);
    assert Push(p, [Normal(name)]) == q;
    assert |q| == |p| + 1 && q[|q| - 1].Normal?;
    assert q[..|q| - 1] == p;
  }

  /** The platform whose rules parse the text of a pushed name. */
  datatype Platform = Unix | Windows

  predicate IsAsciiLetter(c: char) {
    'a' <= c <= 'z' || 'A' <= c <= 'Z'
  }

  /** On Windows, text that starts with an ASCII letter and a colon carries a
      drive prefix such as `C:`; Unix has no prefixes. */
  predicate HasDrivePrefix(platform: Platform, s: string) {
    platform == Windows && |s| >= 2 && IsAsciiLetter(s[0]) && s[1] == ':'
  }

  /** The components of what follows a drive prefix in a name. */
  function ParseRest(s: string): Path {
    if s == "" then []
    else if s == "." then [CurDir]
    else if s == ".." then [ParentDir]
    else [Normal(s)]
  }

  /** The components `push` sees when it is given the text of a name. A
      name taken from `components` is never empty, `.` or `..` and holds no
      separator, so its text parses back to that one name unless it starts
      with a drive prefix, which then leads the parse. */
  function ParseName(platform: Platform, name: string): (r: Path)
    ensures !HasDrivePrefix(platform, name) <==> r == [Normal(name)]
    ensures HasDrivePrefix(platform, name) ==> IsAbsolute(r) && r[0] == Prefix(name[..2])
  {
    if HasDrivePrefix(platform, name) then
      var r := [Prefix(name[..2])] + ParseRest(name[2..]);
      assert r[0] != Normal(name);
      r
    else [Normal(name)]
  }

  /** The path that the text of one component parses to when it is pushed
      back, as iterating a `PathBuf` and pushing each item does. */
  function ComponentPath(platform: Platform, c: Component): (r: Path)
    ensures r == [c] <==> !(c.Normal? && HasDrivePrefix(platform, c.name))
  {
    match c
    case Normal(n) => ParseName(platform, n)
    case _ => [c]
  }

  /** Iterating a path and re-parsing the text of each item, as pushing
      the items of one `PathBuf` onto another does. */
  function Reparse(platform: Platform, p: Path): (r: seq<Path>)
    ensures |r| == |p|
    ensures forall i :: 0 <= i < |p| ==> r[i] == ComponentPath(platform, p[i])
  {
    seq(|p|, i requires 0 <= i < |p| => ComponentPath(platform, p[i]))
  }

  /** Extending keeps the old buffer in front, unless some pushed part
      replaced it, and then the result starts with a root or a prefix. */
  lemma {:induction false} ExtendKeepsBaseOrRestarts(base: Path, parts: seq<Path>)
    ensures var r := ExtendPath(base, parts);
            (|r| >= |base| && r[..|base|] == base) || (|r| > 0 && (r[0].RootDir? || r[0].Prefix?))
    decreases |parts|
  {
    if |parts| > 0 {
      var next := Push(base, parts[0]);
      ExtendKeepsBaseOrRestarts(next, parts[1..]);
      var r := ExtendPath(next, parts[1..]);
      assert r == ExtendPath(base, parts);
      if |r| >= |next| && r[..|next|] == next {
        if IsAbsolute(parts[0]) {
          assert next == parts[0] && r[0] == next[0];
        } else {
          assert next[..|base|] == base;
          assert r[..|base|] == next[..|base|];
        }
      }
    }
  }

  /** `extend` by the items of a path that starts with a prefix discards
      the buffer: the result is the same whatever it was extended from. */
  lemma ExtendRestartsAtPrefix(platform: Platform, base: Path, n: Path)
    requires |n| > 0 && n[0].Prefix?
    ensures ExtendPath(base, Reparse(platform, n)) == ExtendPath([], Reparse(platform, n))
  {
    var pushed := Reparse(platform, n);
    assert pushed[0] == [n[0]] && IsAbsolute(pushed[0]);
    assert Push(base, pushed[0]) == Push([], pushed[0]);
  }

  /** The components of every part, in order. */
  function Concat(parts: seq<Path>): (r: Path)
  {
    if |parts| == 0 then [] else parts[0] + Concat(parts[1..])
  }

  /** `Extend<P: AsRef<Path>> for PathBuf`: push every part in turn. An
      absolute last part is the whole result. */
  function ExtendPath(base: Path, parts: seq<Path>): (r: Path)
    ensures |parts| == 0 ==> r == base
    ensures |parts| > 0 && IsAbsolute(parts[|parts| - 1]) ==> r == parts[|parts| - 1]
    decreases |parts|
  {
    if |parts| == 0 then base else ExtendPath(Push(base, parts[0]), parts[1..])
  }

  /** `PathBuf::from_iter`: push every part onto an empty buffer. Relative
      parts are collected as all their components, in order. */
  function FromParts(parts: seq<Path>): (r: Path)
    ensures AllRelative(parts) ==> r == Concat(parts)
  {
    if AllRelative(parts) then
      ExtendRelative([], parts);
      assert [] + Concat(parts) == Concat(parts);
      ExtendPath([], parts)
    else ExtendPath([], parts)
  }

  /** Iterating a path yields each of its components as a one-component path. */
  function Singletons(p: Path): (r: seq<Path>)
    ensures |r| == |p|
    ensures forall i :: 0 <= i < |p| ==> r[i] == [p[i]]
  {
    seq(|p|, i requires 0 <= i < |p| => [p[i]])
  }

  lemma ConcatOfThree(a: Path, b: Path, c: Path)
    ensures Concat([a, b, c]) == a + b + c
  {
    ConcatOfTwo(b, c);
    var parts := [a, b, c];
    assert parts[1..] == [b, c];
  }

  lemma ConcatOfTwo(a: Path, b: Path)
    ensures Concat([a, b]) == a + b
  {
    var parts := [a, b];
    assert parts[1..] == [b] && parts[1..][1..] == [];
    assert Concat([b]) == b + [];
    assert b + [] == b;
  }

  /** Pushing a sequence of parts in two batches is pushing them all at once. */
  lemma {:induction false} ExtendPathAppend(base: Path, a: seq<Path>, b: seq<Path>)
    ensures ExtendPath(base, a + b) == ExtendPath(ExtendPath(base, a), b)
    decreases |a|
  {
    if |a| == 0 {
      assert a + b == b;
    } else {
      assert (a + b)[0] == a[0];
      assert (a + b)[1..] == a[1..] + b;
      ExtendPathAppend(Push(base, a[0]), a[1..], b);
    }
  }

  lemma AllRelativeTail(parts: seq<Path>)
    requires |parts| > 0 && AllRelative(parts)
    ensures AllRelative(parts[1..])
  {
    forall i | 0 <= i < |parts[1..]| ensures !IsAbsolute(parts[1..][i]) {
      assert parts[1..][i] == parts[i + 1];
    }
  }

  /** When no part is absolute, extending appends every part's components:
      nothing already in the buffer is lost. */
  lemma {:induction false} ExtendRelative(base: Path, parts: seq<Path>)
    requires AllRelative(parts)
    ensures ExtendPath(base, parts) == base + Concat(parts)
    decreases |parts|
  {
    if |parts| > 0 {
      assert !IsAbsolute(parts[0]);
      assert ExtendPath(base, parts) == ExtendPath(base + parts[0], parts[1..]);
      AllRelativeTail(parts);
      ExtendRelative(base + parts[0], parts[1..]);
      assert base + parts[0] + Concat(parts[1..]) == base + (parts[0] + Concat(parts[1..]));
    }
  }

  /** The last absolute part wins: whatever was pushed before it, the buffer
      ends up as that part followed by the parts after it. */
  lemma LastAbsoluteWins(base: Path, parts: seq<Path>, k: nat)
    requires k < |parts| && IsAbsolute(parts[k])
    requires AllRelative(parts[k + 1..])
    ensures ExtendPath(base, parts) == Concat(parts[k..])
  {
    assert parts == parts[..k] + parts[k..];
    ExtendPathAppend(base, parts[..k], parts[k..]);
    var mid := ExtendPath(base, parts[..k]);
    assert parts[k..][0] == parts[k];
    assert parts[k..][1..] == parts[k + 1..];
    ExtendRelative(parts[k], parts[k + 1..]);
  }

  /** Iterating a path and concatenating the pieces gives the path back. */
  lemma {:induction false} ConcatSingletons(p: Path)
    ensures Concat(Singletons(p)) == p
    decreases |p|
  {
    if |p| > 0 {
      assert Singletons(p)[1..] == Singletons(p[1..]);
      ConcatSingletons(p[1..]);
      assert p == [p[0]] + p[1..];
    }
  }

  /** Extending a buffer by the components of a path of names appends exactly
      those names. */
  lemma ExtendByNames(base: Path, names: Path)
    requires AllNormal(names)
    ensures ExtendPath(base, Singletons(names)) == base + names
  {
    var parts := Singletons(names);
    assert AllRelative(parts) by {
      forall i | 0 <= i < |parts| ensures !IsAbsolute(parts[i]) {
        assert parts[i] == [names[i]];
      }
    }
    ExtendRelative(base, parts);
    ConcatSingletons(names);
  }

  // ---------------------------------------------------------------------
  // File names and extensions

  /** `Path::file_name`: the last component when it is a name. */
  function FileName(p: Path): (r: Option<string>)
    ensures r.Some? <==> |p| > 0 && p[|p| - 1].Normal?
    ensures r.Some? ==> p[|p| - 1] == Normal(r.value)
  {
    if |p| > 0 && p[|p| - 1].Normal? then Some(p[|p| - 1].name) else None
  }

  /** Position of the last `.` in `s`, if any. */
  function LastDot(s: string): (r: Option<nat>)
    ensures r.Some? ==> r.value < |s| && s[r.value] == '.'
                        && forall j :: r.value < j < |s| ==> s[j] != '.'
    ensures r.None? ==> forall j :: 0 <= j < |s| ==> s[j] != '.'
    decreases |s|
  {
    if |s| == 0 then None
    else if s[|s| - 1] == '.' then Some(|s| - 1)
    else LastDot(s[..|s| - 1])
  }

  /** The extension of a file name as `Path::extension` splits it: the text
      after the last `.`, except that `..`, a name without a dot and a name
      whose only dot is its first character have none. */
  function ExtensionOf(name: string): (r: Option<string>)
    ensures r.Some? ==> '.' !in r.value
    ensures r.Some? ==> |r.value| + 1 < |name|
                        && name[|name| - |r.value| - 1] == '.'
                        && name[|name| - |r.value|..] == r.value
    ensures r.None? <==>
              name == ".." || '.' !in name || (name[0] == '.' && '.' !in name[1..])
  {
    if name == ".." then None
    else match LastDot(name)
      case None => None
      case Some(i) => if i == 0 then None else Some(name[i + 1..])
  }

  /** `Path::extension`: only a path that ends in a name has one, and it is
      the dot-free text after that name's last dot. */
  function Extension(p: Path): (r: Option<string>)
    ensures r.Some? ==> |p| > 0 && p[|p| - 1].Normal?
    ensures r.Some? ==> var n := p[|p| - 1].name;
                        '.' !in r.value && |r.value| + 1 < |n|
                        && n[|n| - |r.value| - 1] == '.' && n[|n| - |r.value|..] == r.value
    ensures |p| > 0 && p[|p| - 1].Normal? ==> (r.None? <==> ExtensionOf(p[|p| - 1].name).None?)
  {
    match FileName(p)
    case None => None
    case Some(n) => ExtensionOf(n)
  }

  /** The converse of `ExtensionOf`'s contract: a non-empty stem, a dot and
      a dot-free tail always yield that tail as the extension. */
  lemma ExtensionOfJoin(stem: string, ext: string)
    requires |stem| > 0 && '.' !in ext
    requires stem != "." || ext != ""
    ensures ExtensionOf(stem + "." + ext) == Some(ext)
  {
    var name := stem + "." + ext;
    if |ext| == 0 && |stem| == 1 {
      assert stem == [stem[0]] && stem[0] != '.';
      assert name == [stem[0], '.'];
    }
    assert name[|stem|] == '.';
    assert forall j :: |stem| < j < |name| ==> name[j] == ext[j - |stem| - 1];
    var d := LastDot(name);
    assert d.Some? && d.value == |stem|;
    assert name[|stem| + 1..] == ext;
  }
}

=== FILE: static_file.dfy ===
/** The file system handler: it joins the trusted root with the normal form
    of the untrusted URL tail, reads the file found there, and maps the
    outcome to a response. The file system and the MIME table are parameters. */
module StaticFile {
  import opened Wrappers
  import opened Paths
  import opened Normalize
  import Io
  import Http

  type Bytes = seq<Io.byte>

  /** A media type such as `text/html`. */
  type Mime = string

  const ApplicationOctetStream: Mime := "application/octet-stream"

  /** The file system as the handler sees it: for a path, either the file's
      complete contents or the kind of the first error met while opening it,
      reading its metadata or reading it to the end. */
  type FileSystem = Path -> Result<Bytes, Io.ErrorKind>

  /** The MIME table: a guess from a path's extension, which may fail. */
  type MimeGuess = Option<string> -> Option<Mime>

  /** What the handler produces: a 200 response carrying the file's bytes and
      content type, or a handler error carrying a status. */
  datatype Reply = Served(body: Bytes, contentType: Mime) | Failed(status: Http.StatusCode) {

    function Status(): Http.StatusCode {
      match this
      case Served(_, _) => Http.Ok
      case Failed(s) => s
    }
  }

  /** `error_status`: a missing file is 404, a forbidden one 403, and every
      other I/O failure 500. */
  function ErrorStatus(kind: Io.ErrorKind): (r: Http.StatusCode)
    ensures r.IsError()
    ensures r.Code() == 404 <==> kind == Io.NotFound
    ensures r.Code() == 403 <==> kind == Io.PermissionDenied
    ensures r.Code() == 500 <==> kind != Io.NotFound && kind != Io.PermissionDenied
  {
    match kind
    case NotFound => Http.NotFound
    case PermissionDenied => Http.Forbidden
    case _ => Http.InternalServerError
  }

  /** `mime_for_path`: the guessed type of the path's extension, or
      `application/octet-stream` when nothing can be guessed. */
  function MimeForPath(path: Path, guess: MimeGuess): (r: Mime)
    ensures guess(Extension(path)).Some? ==> r == guess(Extension(path)).value
    ensures guess(Extension(path)).None? ==> r == ApplicationOctetStream
  {
    guess(Extension(path)).GetOr(ApplicationOctetStream)
  }

  /** The final branch of `create_file_response`: the bytes read become a
      200 response typed by `mime_for_path`; an error becomes its status. */
  function FileResponse(path: Path, read: Result<Bytes, Io.ErrorKind>, guess: MimeGuess): (r: Reply)
    ensures r.Served? <==> read.Success?
    ensures r.Served? ==> r.body == read.value && r.contentType == MimeForPath(path, guess)
    ensures r.Failed? ==> r.status == ErrorStatus(read.error)
  {
    match read
    case Success(data) => Served(data, MimeForPath(path, guess))
    case Failure(e) => Failed(ErrorStatus(e))
  }

  /** The path `FileSystemHandler::handle` serves: `root` extended by the
      components of the normalised `PathBuf::from_iter(parts)`, each name
      appended as one name. This is the join as intended; it is the code as
      written on Unix (`ServedPathAsWrittenOnUnix`). */
  function ServedPath(root: Path, parts: seq<Path>): (r: Path)
    ensures WithinRoot(root, r)
  {
    var n := NormalizePath(FromParts(parts));
    ExtendByNames(root, n);
    assert (root + n)[..|root|] == root;
    assert (root + n)[|root|..] == n;
    ExtendPath(root, Singletons(n))
  }

  /** The served path exactly as written: the fold re-parses each name it
      pushes, and `extend` re-parses the text of each component it pushes
      onto `root`. */
  function ServedPathAsWritten(platform: Platform, root: Path, parts: seq<Path>): (r: Path)
    ensures var n := NormalizePathAsWritten(platform, FromParts(parts));
            AllNormal(n) && NamesParseAsNames(platform, n) ==> r == root + n
  {
    var n := NormalizePathAsWritten(platform, FromParts(parts));
    if AllNormal(n) && NamesParseAsNames(platform, n) then
      ReparseOfNames(platform, n);
      ExtendByNames(root, n);
      ExtendPath(root, Reparse(platform, n))
    else ExtendPath(root, Reparse(platform, n))
  }

  /** Names that parse back as themselves are pushed one by one. */
  lemma ReparseOfNames(platform: Platform, n: Path)
    requires AllNormal(n) && NamesParseAsNames(platform, n)
    ensures Reparse(platform, n) == Singletons(n)
  {
    forall i | 0 <= i < |n| ensures Reparse(platform, n)[i] == Singletons(n)[i] {
      assert n[i].Normal? && !HasDrivePrefix(platform, n[i].name);
    }
  }

  /** `FileSystemHandler::handle`, with the intended join: the reply is the
      file response for one path within the root. */
  function Handle(root: Path, parts: seq<Path>, fs: FileSystem, guess: MimeGuess): (r: Reply)
    ensures exists p :: WithinRoot(root, p) && r == FileResponse(p, fs(p), guess)
  {
    var path := ServedPath(root, parts);
    FileResponse(path, fs(path), guess)
  }

  /** `FileSystemHandler::handle` exactly as written. On Unix too the reply
      is the file response for one path within the root. */
  function HandleAsWritten(platform: Platform, root: Path, parts: seq<Path>, fs: FileSystem, guess: MimeGuess): (r: Reply)
    ensures platform == Unix ==> exists p :: WithinRoot(root, p) && r == FileResponse(p, fs(p), guess)
  {
    var path := ServedPathAsWritten(platform, root, parts);
    if platform == Unix then
      ServedPathAsWrittenOnUnix(root, parts);
      FileResponse(path, fs(path), guess)
    else FileResponse(path, fs(path), guess)
  }

  /** `p` is `root` itself or lies beneath it, reached through names only. */
  predicate WithinRoot(root: Path, p: Path) {
    |p| >= |root| && p[..|root|] == root && AllNormal(p[|root|..])
  }

  // ---------------------------------------------------------------------
  // Containment

  /** The served path is the root followed by the normal form of the
      untrusted parts; it is therefore always the root or beneath it. */
  lemma ServedPathWithinRoot(root: Path, parts: seq<Path>)
    ensures ServedPath(root, parts) == root + NormalizePath(FromParts(parts))
    ensures WithinRoot(root, ServedPath(root, parts))
  {
    var n := NormalizePath(FromParts(parts));
    ExtendByNames(root, n);
    assert (root + n)[..|root|] == root;
    assert (root + n)[|root|..] == n;
  }

  /** Corollary of `ServedPathWithinRoot`: no sequence of parts reaches a
      path that is not within the root. */
  lemma NoEscape(root: Path, parts: seq<Path>, target: Path)
    requires !WithinRoot(root, target)
    ensures ServedPath(root, parts) != target
  {
    ServedPathWithinRoot(root, parts);
  }

  /** With no absolute part, the served path is the root followed by the
      normal form of all the parts' components. */
  lemma ServedPathOfRelativeParts(root: Path, parts: seq<Path>)
    requires AllRelative(parts)
    ensures ServedPath(root, parts) == root + NormalizePath(Concat(parts))
    ensures ServedPathAsWritten(Unix, root, parts) == root + NormalizePath(Concat(parts))
  {
    ServedPathAsWrittenOnUnix(root, parts);
    ServedPathWithinRoot(root, parts);
    ExtendRelative([], parts);
    assert [] + Concat(parts) == Concat(parts);
  }

  /** A part that is itself absolute discards every part before it, yet the
      result is still taken below the root. */
  lemma ServedPathAfterAbsolutePart(root: Path, parts: seq<Path>, k: nat)
    requires k < |parts| && IsAbsolute(parts[k])
    requires AllRelative(parts[k + 1..])
    ensures ServedPath(root, parts) == root + NormalizePath(Concat(parts[k..]))
    ensures ServedPathAsWritten(Unix, root, parts) == root + NormalizePath(Concat(parts[k..]))
  {
    ServedPathAsWrittenOnUnix(root, parts);
    ServedPathWithinRoot(root, parts);
    LastAbsoluteWins([], parts, k);
  }

  /** When no name among the collected parts starts with a drive, the code
      as written serves the intended path. */
  lemma ServedPathAsWrittenAgrees(platform: Platform, root: Path, parts: seq<Path>)
    requires NamesParseAsNames(platform, FromParts(parts))
    ensures ServedPathAsWritten(platform, root, parts) == ServedPath(root, parts)
  {
    var cs := FromParts(parts);
    NormalizeAsWrittenAgrees(platform, cs);
    assert NamesParseAsNames(platform, []);
    NormalizeFromKeepsNamesParsing(platform, [], cs);
    ServedPathWithinRoot(root, parts);
  }

  /** On Unix the code as written serves the intended path, so it never
      leaves the root. */
  lemma ServedPathAsWrittenOnUnix(root: Path, parts: seq<Path>)
    ensures ServedPathAsWritten(Unix, root, parts) == ServedPath(root, parts)
    ensures WithinRoot(root, ServedPathAsWritten(Unix, root, parts))
  {
    ServedPathAsWrittenAgrees(Unix, root, parts);
  }

  /** On Unix the handler as written is the intended handler. */
  lemma HandleAsWrittenOnUnix(root: Path, parts: seq<Path>, fs: FileSystem, guess: MimeGuess)
    ensures HandleAsWritten(Unix, root, parts, fs, guess) == Handle(root, parts, fs, guess)
  {
    ServedPathAsWrittenOnUnix(root, parts);
  }

  // ---------------------------------------------------------------------
  // Outcomes

  /** The handler consults the file system at one path only, and it lies
      within the root: file systems that agree within the root yield the
      same reply, whatever exists outside it. */
  lemma HandleReadsOnlyWithinRoot(root: Path, parts: seq<Path>, fs1: FileSystem, fs2: FileSystem, guess: MimeGuess)
    requires forall p :: WithinRoot(root, p) ==> fs1(p) == fs2(p)
    ensures Handle(root, parts, fs1, guess) == Handle(root, parts, fs2, guess)
    ensures HandleAsWritten(Unix, root, parts, fs1, guess) == HandleAsWritten(Unix, root, parts, fs2, guess)
  {
    HandleAsWrittenOnUnix(root, parts, fs1, guess);
    HandleAsWrittenOnUnix(root, parts, fs2, guess);
  }

  /** The reply's status follows the read of the served path: 200 exactly
      when it succeeds, otherwise 404, 403 or 500 by error kind. */
  lemma HandleStatus(root: Path, parts: seq<Path>, fs: FileSystem, guess: MimeGuess)
    ensures var read := fs(ServedPath(root, parts));
            var s := Handle(root, parts, fs, guess).Status();
            && (s.Code() == 200 <==> read.Success?)
            && (s.Code() == 404 <==> read == Failure(Io.NotFound))
            && (s.Code() == 403 <==> read == Failure(Io.PermissionDenied))
            && (s.Code() == 500 <==> read.Failure? && read.error != Io.NotFound && read.error != Io.PermissionDenied)
  {
  }

  /** When no file exists within the root, every request is a 404, whatever
      exists outside it. */
  lemma NothingWithinRootIsNotFound(root: Path, parts: seq<Path>, fs: FileSystem, guess: MimeGuess)
    requires forall p :: WithinRoot(root, p) ==> fs(p) == Failure(Io.NotFound)
    ensures Handle(root, parts, fs, guess).Status().Code() == 404
    ensures HandleAsWritten(Unix, root, parts, fs, guess).Status().Code() == 404
  {
    HandleAsWrittenOnUnix(root, parts, fs, guess);
  }

  /** A served file named `stem.ext` is typed by the guess for `ext`, or as
      an octet stream when the table knows no type for it. */
  lemma ContentTypeByExtension(root: Path, stem: string, ext: string, guess: MimeGuess)
    requires |stem| > 0 && '.' !in ext && (stem != "." || ext != "")
    ensures var path := root + [Normal(stem + "." + ext)];
            && (guess(Some(ext)).Some? ==> MimeForPath(path, guess) == guess(Some(ext)).value)
            && (guess(Some(ext)).None? ==> MimeForPath(path, guess) == ApplicationOctetStream)
  {
    ExtensionOfJoin(stem, ext);
  }
}

=== FILE: traversal.dfy ===
/** The traversal and content-type cases of the handler's tests, stated on
    the model. URL tails appear already percent-decoded and split into the
    components `Path::components` yields for each part. */
module TraversalVectors {
  import opened Wrappers
  import opened Paths
  import opened Normalize
  import opened StaticFile
  import Io
  import Http

  /** The root the tests mount: `resources/test/static_files`. */
  function TestRoot(): Path {
    [Normal("resources"), Normal("test"), Normal("static_files")]
  }

  /** A file next to the root rather than beneath it. */
  function Secret(): Path {
    [Normal("resources"), Normal("test"), Normal("private_files"), Normal("secret.txt")]
  }

  /** A file system whose only file is `Secret()`. */
  function SecretOnly(contents: Bytes): FileSystem {
    p => if p == Secret() then Success(contents) else Failure(Io.NotFound)
  }

  /** Relative parts whose components are some `..` followed by names are
      served as exactly those names beneath the root. */
  lemma ClimbThenNames(root: Path, parts: seq<Path>, k: nat, names: Path)
    requires AllRelative(parts) && AllNormal(names)
    requires Concat(parts) == ParentDirs(k) + names
    ensures ServedPath(root, parts) == root + names
  {
    ServedPathOfRelativeParts(root, parts);
    LeadingParentDirsForgotten(k, names);
    NamesNormalizeToThemselves(names);
  }

  /** `../private_files/secret.txt`, segment by segment: the `..` is
      forgotten, so the request names `private_files/secret.txt` beneath
      the root. */
  lemma DotDotSegmentLandsWithinRoot(root: Path, dir: string, file: string)
    ensures ServedPath(root, [[ParentDir], [Normal(dir)], [Normal(file)]])
            == root + [Normal(dir), Normal(file)]
  {
    ConcatOfThree([ParentDir], [Normal(dir)], [Normal(file)]);
    assert [ParentDir] + [Normal(dir)] + [Normal(file)] == ParentDirs(1) + [Normal(dir), Normal(file)];
    ClimbThenNames(root, [[ParentDir], [Normal(dir)], [Normal(file)]], 1, [Normal(dir), Normal(file)]);
  }

  /** `%2e%2e%2fprivate_files/secret.txt`, and `..\private_files/secret.txt`
      where `\` separates: the climb packed inside one decoded part ends in
      the same place. */
  lemma DotDotInsidePartLandsWithinRoot(root: Path, dir: string, file: string)
    ensures ServedPath(root, [[ParentDir, Normal(dir)], [Normal(file)]])
            == root + [Normal(dir), Normal(file)]
    ensures ServedPathAsWritten(Unix, root, [[ParentDir, Normal(dir)], [Normal(file)]])
            == root + [Normal(dir), Normal(file)]
  {
    ServedPathAsWrittenOnUnix(root, [[ParentDir, Normal(dir)], [Normal(file)]]);
    ConcatOfTwo([ParentDir, Normal(dir)], [Normal(file)]);
    assert [ParentDir, Normal(dir)] + [Normal(file)] == ParentDirs(1) + [Normal(dir), Normal(file)];
    ClimbThenNames(root, [[ParentDir, Normal(dir)], [Normal(file)]], 1, [Normal(dir), Normal(file)]);
  }

  /** `%2e%2e%5cprivate_files/secret.txt` where `\` is an ordinary
      character: `..\private_files` is a single name. */
  lemma BackslashNameLandsWithinRoot(root: Path, file: string)
    ensures ServedPath(root, [[Normal("..\\private_files")], [Normal(file)]])
            == root + [Normal("..\\private_files"), Normal(file)]
  {
    ConcatOfTwo([Normal("..\\private_files")], [Normal(file)]);
    assert ParentDirs(0) + [Normal("..\\private_files"), Normal(file)] == [Normal("..\\private_files")] + [Normal(file)];
    ClimbThenNames(root, [[Normal("..\\private_files")], [Normal(file)]], 0, [Normal("..\\private_files"), Normal(file)]);
  }

  /** The request tail `//etc/passwd` with its slashes unencoded reaches the
      handler as the two name parts `etc` and `passwd`, served as
      `root/etc/passwd`. */
  lemma SlashSeparatedSegmentsLandWithinRoot(root: Path, dir: string, file: string)
    ensures ServedPath(root, [[Normal(dir)], [Normal(file)]]) == root + [Normal(dir), Normal(file)]
  {
    ConcatOfTwo([Normal(dir)], [Normal(file)]);
    assert ParentDirs(0) + [Normal(dir), Normal(file)] == [Normal(dir)] + [Normal(file)];
    ClimbThenNames(root, [[Normal(dir)], [Normal(file)]], 0, [Normal(dir), Normal(file)]);
  }

  /** The components of an absolute part `/dir/file` normalise to its names. */
  lemma AbsolutePartNormalForm(dir: string, file: string)
    ensures NormalizePath(Concat([[RootDir, Normal(dir), Normal(file)]])) == [Normal(dir), Normal(file)]
  {
    var part := [RootDir, Normal(dir), Normal(file)];
    var v := [part];
    var names := [Normal(dir), Normal(file)];
    assert v[1..] == [];
    assert Concat(v) == part + [];
    assert part + [] == [RootDir] + names;
    NormalizeIgnoresRootsAndDots(names);
    NamesNormalizeToThemselves(names);
  }

  /** The encoded form `%2fetc%2fpasswd` decodes into one absolute part
      `/etc/passwd`. It is served as `etc/passwd` beneath the root, also
      when it follows another part, which it discards. */
  lemma AbsolutePartLandsWithinRoot(root: Path, earlier: string, dir: string, file: string)
    ensures ServedPath(root, [[RootDir, Normal(dir), Normal(file)]])
            == root + [Normal(dir), Normal(file)]
    ensures ServedPath(root, [[Normal(earlier)], [RootDir, Normal(dir), Normal(file)]])
            == root + [Normal(dir), Normal(file)]
  {
    var part := [RootDir, Normal(dir), Normal(file)];
    var v := [part];
    AbsolutePartNormalForm(dir, file);
    ServedPathAfterAbsolutePart(root, v, 0);
    assert v[0..] == v;
    var w := [[Normal(earlier)], part];
    ServedPathAfterAbsolutePart(root, w, 1);
    assert w[1..] == v;
  }

  /** The code as written, on either platform, never reaches the secret
      from the test root: its served path either keeps the root in front or
      starts with a root or a drive, and the secret does neither. */
  lemma AsWrittenMissesSecret(platform: Platform, parts: seq<Path>)
    ensures ServedPathAsWritten(platform, TestRoot(), parts) != Secret()
  {
    var n := NormalizePathAsWritten(platform, FromParts(parts));
    var r := ServedPathAsWritten(platform, TestRoot(), parts);
    assert r == ExtendPath(TestRoot(), Reparse(platform, n));
    ExtendKeepsBaseOrRestarts(TestRoot(), Reparse(platform, n));
    NotSecret(r);
  }

  /** A path that keeps the test root in front, or starts with a root or a
      drive, is not the secret. */
  lemma NotSecret(r: Path)
    requires (|r| >= 3 && r[..3] == TestRoot()) || (|r| > 0 && (r[0].RootDir? || r[0].Prefix?))
    ensures r != Secret()
  {
    if |r| >= 3 && r[..3] == TestRoot() {
      assert r[2] == r[..3][2] == Normal("static_files");
      assert Secret()[2] == Normal("private_files");
      assert |"static_files"| != |"private_files"|;
    } else {
      assert Secret()[0].Normal?;
    }
  }

  /** Every traversal attempt, and in fact every URL tail, is answered 404
      when the only file lies outside the root: by the intended handler, and
      by the handler as written on either platform, because the secret is
      not reached through a drive. */
  lemma TraversalAttemptsAreNotFound(parts: seq<Path>, contents: Bytes, guess: MimeGuess)
    ensures Handle(TestRoot(), parts, SecretOnly(contents), guess).Status() == Http.NotFound
    ensures forall platform :: HandleAsWritten(platform, TestRoot(), parts, SecretOnly(contents), guess).Status()
                               == Http.NotFound
  {
    forall platform
      ensures HandleAsWritten(platform, TestRoot(), parts, SecretOnly(contents), guess).Status() == Http.NotFound
    {
      AsWrittenMissesSecret(platform, parts);
    }
    var fs := SecretOnly(contents);
    forall p | WithinRoot(TestRoot(), p) ensures fs(p) == Failure(Io.NotFound) {
      assert p[2] == Normal("static_files");
      assert p != Secret() by {
        assert Secret()[2] == Normal("private_files");
      }
    }
    NothingWithinRootIsNotFound(TestRoot(), parts, fs, guess);
  }

  /** A plain file name is served beneath the root under that name. */
  lemma FileNameLandsWithinRoot(root: Path, name: string)
    ensures ServedPath(root, [[Normal(name)]]) == root + [Normal(name)]
  {
    var parts: seq<Path> := [[Normal(name)]];
    assert parts[1..] == [];
    assert Concat(parts) == [Normal(name)] + [];
    assert ParentDirs(0) + [Normal(name)] == [Normal(name)] + [];
    ClimbThenNames(root, parts, 0, [Normal(name)]);
  }

  /** A file `stem.ext` named by the URL tail, such as `doc.html`, is served
      with exactly its bytes and the type the table gives its extension. */
  lemma DocumentIsServedWithItsType(root: Path, stem: string, ext: string, fs: FileSystem,
                                    guess: MimeGuess, contents: Bytes, mime: Mime)
    requires |stem| > 0 && '.' !in ext && (stem != "." || ext != "")
    requires fs(root + [Normal(stem + "." + ext)]) == Success(contents)
    requires guess(Some(ext)) == Some(mime)
    ensures Handle(root, [[Normal(stem + "." + ext)]], fs, guess) == Served(contents, mime)
  {
    FileNameLandsWithinRoot(root, stem + "." + ext);
    ContentTypeByExtension(root, stem, ext, guess);
  }
}

=== FILE: wrappers.dfy ===
/** Optional values and fallible results, the two shapes the handler's
    collaborators hand back (`Option` from MIME guessing, `io::Result` from
    opening and reading a file). */
module Wrappers {

  datatype Option<+T> = None | Some(value: T) {

    /** The carried value, or `default` when there is none. */
    function GetOr(default: T): (r: T)
      ensures Some? ==> r == value
      ensures None? ==> r == default
    {
      match this
      case Some(v) => v
      case None => default
    }
  }

  datatype Result<+R, +E> = Success(value: R) | Failure(error: E)
}
